=== FILE: README.md ===
# Crypto portfolio ledger replay, in Dafny

This project models the two reductions that the crypto portfolio tracker's backend
runs over one owner's trade history. The history is sorted by execution time.

- **Tax hints** (`TaxService.calculateTaxHints`). The service keeps a FIFO queue of
  open buy lots per asset. Each SELL consumes lots oldest first and splits the head
  lot when it uses only part of it. Each lot-slice it cuts is classified short-term
  or long-term at 365 days held, and is taxed at 30% or 20% of a positive gain.
  A slice with a non-zero gain gets a hint with a text and a severity. The slices
  are summed into short/long-term subtotals, and portfolio recommendations are
  added.
- **Holdings rebuild** (`TradeService.rebuildHoldingsForUser`). The service keeps
  one running quantity and weighted-average price per symbol. A SELL larger than
  the quantity held throws, and the transaction rolls back. Symbols with a final
  quantity of zero or less are not saved.

Modules, one per component:

- `Ledger` (`ledger.dfy`): trades, the BUY/SELL side, a `Result` type, and the
  reference quantity `NetQuantity` (everything bought minus everything sold).
- `LotQueue` (`lot_queue.dfy`): lots, lot-slices, and `MatchSell`. `MatchSell`
  is the inner matching loop that runs for one SELL.
- `TaxLots` (`tax_lots.dfy`): `ReplayTrade` and `Replay`. Together they form the
  outer loop over the history, with one queue per asset.
- `TaxSummary` (`tax_summary.dfy`): tax, hint text, severity, subtotals,
  recommendations, and `CalculateTaxHints`.
- `Holdings` (`holdings.dfy`): `ApplyTrade`, `RebuildAll`, `RebuildHoldings`, and
  `Commit`. `Commit` models the store after the transactional rebuild.
- `Consistency` (`consistency.dfy`): how the two reductions relate, plus worked
  scenarios.

Money and quantities are `real`. Timestamps are whole day numbers, so the days
held are `sellDay - buyDay`. Hint texts and recommendations are tagged variants,
and each variant carries the number its message quotes.

## Model

All source paths are under `backend/src/main/java/com/CryptoProject/CryptoInfosys/`.

| member | source | states |
|---|---|---|
| LotQueue.MatchSell | backend/src/main/java/com/CryptoProject/CryptoInfosys/service/TaxService.java:63-116 | The matched quantity plus the unmatched remainder equals the sell quantity. What was matched leaves the queue, and nothing else does. A non-negative sell has a non-negative unmatched part, so the total matched never exceeds the sell. An unmatched remainder means the queue ran empty. There are never more slices than lots. |
| LotQueue.MatchSellFollowsQueue | backend/src/main/java/com/CryptoProject/CryptoInfosys/service/TaxService.java:72-81 | The i-th slice is cut from the i-th oldest lot, with that lot's price and day and the sell's price and day. Every slice except the last uses its whole lot, so no later lot is touched while an earlier one is open. |
| LotQueue.MatchSellLeavesFifoRest | backend/src/main/java/com/CryptoProject/CryptoInfosys/service/TaxService.java:110-115 | After the sell, the lots beyond the last sliced one are untouched. The last sliced lot is either dequeued, or stays at the head reduced by exactly the matched quantity, with a positive remainder. |
| LotQueue.MatchSellKeepsLotsPositive | backend/src/main/java/com/CryptoProject/CryptoInfosys/service/TaxService.java:74-115 | From positive lots, every slice is positive and no larger than its lot, and every lot left behind is positive. |
| LotQueue.MatchSellCovered | backend/src/main/java/com/CryptoProject/CryptoInfosys/service/TaxService.java:72-115 | A sell that the open lots cover is matched in full, and the queue total drops by exactly the sell quantity. |
| TaxLots.ReplayTrade | backend/src/main/java/com/CryptoProject/CryptoInfosys/service/TaxService.java:48-119 | A BUY appends its lot to its own asset's queue and emits no slice. Skipping a SELL that has no queue or an empty queue gives the same result as matching it against no lots. A SELL otherwise appends its slices in order. No other asset's queue changes. |
| TaxLots.Replay | backend/src/main/java/com/CryptoProject/CryptoInfosys/service/TaxService.java:48-120 | Every slice of a replayed history carries the asset, sell price and sell day of some SELL of the history. That BUYs and skipped SELLs emit no slices at all is stated per trade by `ReplayTrade`. |
| TaxLots.ReplayQueueIsFifoRemainder | backend/src/main/java/com/CryptoProject/CryptoInfosys/service/TaxService.java:53-116 | After any history, an asset's queue is a suffix of the lots its BUYs opened, in BUY order. Only the head may have been partly consumed, and every open lot is positive. |
| TaxLots.ChronologicalHoldingPeriods | backend/src/main/java/com/CryptoProject/CryptoInfosys/service/TaxService.java:34-77 | In a time-ordered history, no open lot postdates the last trade, and every slice's holding period is non-negative. |
| TaxSummary.EstimatedTax | backend/src/main/java/com/CryptoProject/CryptoInfosys/service/TaxService.java:84-85 | Tax is never negative. It is zero exactly when the gain is zero or a loss. It is less than a positive gain, and lower for long-term than for short-term on the same gain. |
| TaxSummary.GenerateHint | backend/src/main/java/com/CryptoProject/CryptoInfosys/service/TaxService.java:136-150 | The loss note appears exactly for gains of zero or less. A positive gain gets the long-term text exactly when it is long-term, and the hold-longer text exactly when it is short-term and held fewer than 335 days. Otherwise it gets the short-term text. The days-held variants quote the days held. The hold-longer suggestion names the days still missing to 365, which is always more than 30. |
| TaxSummary.DetermineHintType | backend/src/main/java/com/CryptoProject/CryptoInfosys/service/TaxService.java:152-166 | A loss is INFO. OPTIMIZATION is given exactly to a short-term gain held fewer than 335 days. WARNING is given exactly to any other positive gain whose tax is above 100000; everything else is INFO. |
| TaxSummary.HintAgreesWithSeverity | backend/src/main/java/com/CryptoProject/CryptoInfosys/service/TaxService.java:136-166 | The text and the severity agree. The hold-longer text appears exactly when the severity is OPTIMIZATION, and a loss note is only INFO. A WARNING is neither, and needs a gain above 100000 / 0.30. |
| TaxSummary.HoldingPeriodBoundary | backend/src/main/java/com/CryptoProject/CryptoInfosys/service/TaxService.java:77-78 | A slice is long-term exactly when it was held 365 days or more. 365 days is LONG_TERM and 364 days is SHORT_TERM. |
| TaxSummary.MakeHint | backend/src/main/java/com/CryptoProject/CryptoInfosys/service/TaxService.java:97-107 | A hint reports the slice's asset, its signed gain, the tax on that gain, its holding period and its days held. The loss note appears exactly for a gain of zero or less. The long-term text appears exactly for a positive long-term gain, and the days-held texts quote the slice's days held. The hold-longer text appears exactly for a positive short-term gain held fewer than 335 days, and it quotes 365 minus the days held. OPTIMIZATION severity appears exactly with the hold-longer text. WARNING is given exactly to a positive gain that is long-term or held at least 335 days and whose tax is above 100000. |
| TaxSummary.AddSlice | backend/src/main/java/com/CryptoProject/CryptoInfosys/service/TaxService.java:87-108 | One slice adds its gain to its own class's gain subtotal only. It adds the class rate times its gain to that class's tax only when the gain is positive. It appends its hint exactly when the gain is non-zero. |
| TaxSummary.Accumulate | backend/src/main/java/com/CryptoProject/CryptoInfosys/service/TaxService.java:87-108 | Every slice, zero gains included, goes into its class's gain subtotal. Each tax subtotal is the class rate times the sum of the class's positive gains, so it is non-negative. The hints are exactly those of the non-zero-gain slices, in processing order. |
| TaxSummary.PositiveGainRecommendations | backend/src/main/java/com/CryptoProject/CryptoInfosys/service/TaxService.java:176-191 | Each optional item is present exactly when its flag is set. The items appear in their fixed order and are followed by the two closing notes, so the list has 2 to 5 entries. |
| TaxSummary.Recommendations | backend/src/main/java/com/CryptoProject/CryptoInfosys/service/TaxService.java:168-192 | With no positive total gain, the list is only the no-liability note. Otherwise hold-longer appears iff short-term gains exceed long-term gains, and loss harvesting iff total tax exceeds 100000. Documentation appears iff both taxes are positive. The items are in fixed order, the advisor and records notes come last, and the length is 2 to 5. |
| TaxSummary.CalculateTaxHints | backend/src/main/java/com/CryptoProject/CryptoInfosys/service/TaxService.java:33-134 | The total gain is short-term plus long-term gains, and the total tax is short-term plus long-term tax. The hints are those of the replayed slices, and the recommendations are the ones for these figures. |
| TaxSummary.TaxSummaryFigures | backend/src/main/java/com/CryptoProject/CryptoInfosys/service/TaxService.java:122-131 | Each class's gain subtotal is the sum of its slices' gains. Short-term tax is 30% of the short-term positive gains, and long-term tax is 20% of the long-term ones. The grand totals are the sums of the two classes, and every tax figure is non-negative. The hints are those of the non-zero-gain slices. The recommendations are the ones for these figures, and there is exactly one iff the total gain is not positive. |
| TaxSummary.HintsReportNonZeroGains | backend/src/main/java/com/CryptoProject/CryptoInfosys/service/TaxService.java:97-108 | There are no more hints than slices. Every hint has a non-zero gain and a non-negative tax. |
| Holdings.ApplyTrade | backend/src/main/java/com/CryptoProject/CryptoInfosys/service/TradeService.java:163-205 | A BUY adds its quantity, and quantity times average stays equal to the total cost paid. After a full sell-out, the average restarts at the trade price. A SELL succeeds iff it is within the holding; it then lowers the quantity and keeps the average. Otherwise it fails with the available quantity. No other symbol's entry changes. |
| Holdings.RebuildAll | backend/src/main/java/com/CryptoProject/CryptoInfosys/service/TradeService.java:161-205 | When the rebuild succeeds, no quantity is negative. |
| Holdings.RebuildConservesQuantity | backend/src/main/java/com/CryptoProject/CryptoInfosys/service/TradeService.java:163-205 | On success, each symbol's quantity equals its BUY quantities minus its SELL quantities. No prefix of the history is net negative for it. |
| Holdings.RebuildSucceedsIffNeverOversold | backend/src/main/java/com/CryptoProject/CryptoInfosys/service/TradeService.java:194-201 | The rebuild succeeds exactly when no prefix of the history sells more of a symbol than it bought. |
| Holdings.RebuildKeepsHeldSymbols | backend/src/main/java/com/CryptoProject/CryptoInfosys/service/TradeService.java:207-208 | A symbol is saved exactly when its net quantity is positive, and it is saved with that quantity. |
| Holdings.RebuildHoldings | backend/src/main/java/com/CryptoProject/CryptoInfosys/service/TradeService.java:196-208 | The rebuild fails exactly when some prefix of the history sells more of a symbol than it bought. On success, every saved holding has a positive quantity. |
| Holdings.BuyInto | backend/src/main/java/com/CryptoProject/CryptoInfosys/service/TradeService.java:186-190 | The new quantity is the old one plus the BUY's, and the new quantity times the new average equals the old cost plus the BUY's cost. When nothing was held, the average is the BUY price. |
| Holdings.BuyIntoStaysWithin | backend/src/main/java/com/CryptoProject/CryptoInfosys/service/TradeService.java:186-190 | A BUY whose price lies in [lo, hi] keeps the average in [lo, hi], because the new average is a convex combination. |
| Holdings.AveragePriceWithinBuyRange | backend/src/main/java/com/CryptoProject/CryptoInfosys/service/TradeService.java:184-204 | A symbol on the books has an average price between the lowest and the highest BUY price paid for it. |
| Holdings.SavedAveragePriceWithinBuyRange | backend/src/main/java/com/CryptoProject/CryptoInfosys/service/TradeService.java:184-208 | The saved holdings keep that average-price bound. |
| Holdings.CommitIgnoresStoredHoldings | backend/src/main/java/com/CryptoProject/CryptoInfosys/service/TradeService.java:151-210 | The stored holdings after a rebuild do not depend on what was stored before, and rebuilding twice changes nothing more. A failed rebuild leaves the store as it was. |
| Holdings.Commit | backend/src/main/java/com/CryptoProject/CryptoInfosys/service/TradeService.java:150-211 | An oversold history leaves the store as it was, because the transaction rolls back. Otherwise the old holdings are replaced by exactly the rebuilt snapshot, which holds only positive quantities. |
| Consistency.QueueTotalIsHolding | backend/src/main/java/com/CryptoProject/CryptoInfosys/service/TaxService.java:48-119 | If the holdings rebuild accepts a history, each asset's open tax lots add up to its holding quantity. |
| Consistency.AcceptedTradeIsCovered | backend/src/main/java/com/CryptoProject/CryptoInfosys/service/TaxService.java:61-72 | If the holdings rebuild accepts a history, then at each SELL the asset's open tax lots cover the sell quantity, so nothing is left unmatched. |
| Consistency.HoldingsAcceptedMeansFullyMatched | backend/src/main/java/com/CryptoProject/CryptoInfosys/service/TaxService.java:63-116 | If the holdings rebuild accepts a history, the tax engine matches every SELL in full, so its silent skip of unmatched quantity never fires. |
| Consistency.OversoldHistoryOnlyFailsHoldings | backend/src/main/java/com/CryptoProject/CryptoInfosys/service/TradeService.java:196-201 | A SELL with nothing bought makes the rebuild fail with zero available. The tax engine instead skips that SELL: no hint, zero gain, and only the no-liability recommendation. |
| Consistency.OldestLotSoldFirst | backend/src/main/java/com/CryptoProject/CryptoInfosys/service/TaxService.java:72-81 | With lots bought at 10 and 20, a one-unit SELL on day 400 is matched against the price-10 lot as long-term, and the price-20 lot stays open. |
| Consistency.PartialLotSplit | backend/src/main/java/com/CryptoProject/CryptoInfosys/service/TaxService.java:72-115 | After buying 3 at 10 and selling 2 at 15 ten days later, there is one short-term slice of 2 with gain 10, and 1 unit stays open. |

## Left out

- Persistence, queries and transactions are not modelled: the repository reads (`findBy...OrderByExecutedAtAsc`), `deleteByUser` and `saveAll`. The rebuild takes the trade sequence as a parameter. `Commit` models only the transactional effect on the store.
- Sorting is not modelled. The repository sorts the trades, and `Chronological` is a premise only where the holding period's sign depends on it.
- `addTrade`, `updateTrade`, `deleteTrade`, `getTrades`, notifications, the controller and the frontend are left out. They are persistence, authentication and UI glue around the rebuild.
- IEEE double arithmetic is not modelled, because the model computes exactly. Rounding, NaN and the inexact 0.30 / 0.20 rates are lost, and `gain != 0` and `<= 0` are exact comparisons.
- `LocalDateTime` and `ChronoUnit.DAYS.between` are replaced by integer day numbers, because calendar arithmetic is not part of the logic. The `(int)` narrowing of the days held is dropped, since day counts are unbounded.
- The exact `String.format` wording of hints and recommendations is left out. The model keeps the case reported and the number quoted.
- The trade fee, and the `Holding` entity's id, user and name fields, are left out. Neither reduction reads them.
- Holdings.RebuildAll: requires every trade quantity to be positive (`WellFormed`). A zero-quantity first BUY makes the source divide zero by zero.
- Holdings.ApplyTrade: requires the same positive trade quantity.
- The tax engine itself never validates its input. `Replay` and `CalculateTaxHints` are total, as in the code. Malformed quantities are excluded only by the premises of the lemmas that need positive lots.
- TaxSummary.PositiveGainRecommendations: lists the eight possible results, one per combination of the three conditions, instead of appending item by item as the source does. The contract pins down which items appear and in what order, so the lists are the same.

=== FILE: consistency.dfy ===
/**
 How the two reductions of the same history relate. The holdings rebuild
 rejects any SELL larger than what is held, while the tax engine quietly
 matches what it can; when the rebuild succeeds the tax engine's queues hold
 exactly the holdings, so it never has anything to drop.
 */
module Consistency {
  import opened Ledger
  import opened LotQueue
  import opened TaxLots
  import opened TaxSummary
  import opened Holdings

  /** Every prefix of a history the rebuild accepts is accepted too. */
  lemma {:induction false} RebuildPrefixSucceeds(trades: seq<Trade>, k: nat)
    requires WellFormed(trades) && k <= |trades| && RebuildAll(trades).Success?
    ensures WellFormed(trades[..k]) && RebuildAll(trades[..k]).Success?
    decreases |trades| - k
  {
    WellFormedPrefix(trades, k);
    if k < |trades| {
      var prefix := trades[..|trades| - 1];
      WellFormedPrefix(trades, |trades| - 1);
      assert RebuildAll(prefix).Success?;
      RebuildPrefixSucceeds(prefix, k);
      assert prefix[..k] == trades[..k];
    } else {
      assert trades[..k] == trades;
    }
  }

  /** On an accepted history each asset's open lots add up to its holding. */
  lemma {:induction false} QueueTotalIsHolding(trades: seq<Trade>, symbol: string)
    requires WellFormed(trades) && RebuildAll(trades).Success?
    ensures TotalQuantity(QueueOf(Replay(trades), symbol)) == QuantityOf(RebuildAll(trades).value, symbol)
    decreases |trades|
  {
    if |trades| > 0 {
      var prefix := trades[..|trades| - 1];
      var t := trades[|trades| - 1];
      WellFormedPrefix(trades, |trades| - 1);
      var st := Replay(prefix);
      var m := RebuildAll(prefix).value;
      QueueTotalIsHolding(prefix, symbol);
      assert Replay(trades) == ReplayTrade(st, t);
      assert RebuildAll(trades) == ApplyTrade(m, t);
      var q := QueueOf(st, symbol);
      if t.symbol == symbol {
        if t.side == Buy {
          TotalQuantityAppend(q, LotOf(t));
        } else {
          MatchSellCovered(q, t.quantity, t);
        }
      }
    }
  }

  /** On an accepted history, the open lots cover the i-th trade when it is a SELL. */
  lemma {:induction false} AcceptedTradeIsCovered(trades: seq<Trade>, i: nat)
    requires WellFormed(trades) && RebuildAll(trades).Success? && i < |trades|
    ensures Shortfall(Replay(trades[..i]), trades[i]) == 0.0
  {
    var prefix := trades[..i];
    var t := trades[i];
    RebuildPrefixSucceeds(trades, i + 1);
    RebuildPrefixSucceeds(trades, i);
    var p := trades[..i + 1];
    assert p[..|p| - 1] == prefix && p[|p| - 1] == t;
    var m := RebuildAll(prefix).value;
    assert RebuildAll(p) == ApplyTrade(m, t);
    if t.side == Sell {
      assert t.quantity <= QuantityOf(m, t.symbol);
      var q := QueueOf(Replay(prefix), t.symbol);
      QueueTotalIsHolding(prefix, t.symbol);
      assert t.quantity > 0.0;
      MatchSellCovered(q, t.quantity, t);
    }
  }

  /** When the holdings rebuild accepts a history, the tax engine matches every SELL in full. */
  lemma {:induction false} HoldingsAcceptedMeansFullyMatched(trades: seq<Trade>)
    requires WellFormed(trades) && RebuildAll(trades).Success?
    ensures FullyMatched(trades)
  {
    forall i | 0 <= i < |trades|
      ensures Shortfall(Replay(trades[..i]), trades[i]) == 0.0
    {
      AcceptedTradeIsCovered(trades, i);
    }
  }

  /**
   The asymmetry on a SELL with nothing bought before it: the rebuild fails
   with nothing available, while the tax engine skips the sell and reports no
   gain, no hint and the single no-liability recommendation.
   */
  lemma OversoldHistoryOnlyFailsHoldings()
    ensures var trades := [Trade("BTC", Sell, 1.0, 100.0, 0)];
      && WellFormed(trades)
      && RebuildAll(trades) == Failure(InvalidSell("BTC", 0.0))
      && !FullyMatched(trades)
      && CalculateTaxHints(trades).hints == []
      && CalculateTaxHints(trades).totalRealizedGains == 0.0
      && CalculateTaxHints(trades).recommendations == [NoLiability]
  {
    var trades := [Trade("BTC", Sell, 1.0, 100.0, 0)];
    assert trades[..0] == [];
    assert RebuildAll(trades) == ApplyTrade(map[], trades[0]);
    assert Replay(trades) == ReplayState(map[], []);
    assert Shortfall(Replay(trades[..0]), trades[0]) == 1.0;
    assert Accumulate([]) == Totals(0.0, 0.0, 0.0, 0.0, []);
  }

  /**
   FIFO order: two lots bought at 10 and 20; a SELL of one unit 400 days after
   the first is matched against the older lot, long-term, and the newer lot
   stays open untouched.
   */
  lemma OldestLotSoldFirst(sellPrice: real)
    ensures var trades := [Trade("BTC", Buy, 1.0, 10.0, 0), Trade("BTC", Buy, 1.0, 20.0, 1),
                           Trade("BTC", Sell, 1.0, sellPrice, 400)];
      && Replay(trades).slices == [Slice("BTC", 1.0, 10.0, sellPrice, 0, 400)]
      && PeriodOf(Replay(trades).slices[0]) == LongTerm
      && QueueOf(Replay(trades), "BTC") == [Lot(20.0, 1.0, 1)]
  {
    var trades := [Trade("BTC", Buy, 1.0, 10.0, 0), Trade("BTC", Buy, 1.0, 20.0, 1),
                   Trade("BTC", Sell, 1.0, sellPrice, 400)];
    assert trades[..0] == [];
    assert trades[..1][..0] == [];
    assert trades[..2][..1] == trades[..1];
    assert trades[..3] == trades;
    var s0 := ReplayState(map[], []);
    assert Replay(trades[..1]) == ReplayTrade(s0, trades[0]);
    var s1 := Replay(trades[..1]);
    assert QueueOf(s1, "BTC") == [Lot(10.0, 1.0, 0)];
    assert Replay(trades[..2]) == ReplayTrade(s1, trades[1]);
    var s2 := Replay(trades[..2]);
    assert QueueOf(s2, "BTC") == [Lot(10.0, 1.0, 0), Lot(20.0, 1.0, 1)];
    var m := MatchSell(QueueOf(s2, "BTC"), 1.0, trades[2]);
    assert [Lot(10.0, 1.0, 0), Lot(20.0, 1.0, 1)][1..] == [Lot(20.0, 1.0, 1)];
    assert m.slices == [Slice("BTC", 1.0, 10.0, sellPrice, 0, 400)];
    assert m.rest == [Lot(20.0, 1.0, 1)];
    assert Replay(trades) == ReplayTrade(s2, trades[2]);
  }

  /**
   Partial-lot split: three units bought at 10; selling two at 15 ten days later
   yields one short-term slice of two units with a gain of 10 and leaves one
   unit open.
   */
  lemma PartialLotSplit()
    ensures var trades := [Trade("ETH", Buy, 3.0, 10.0, 0), Trade("ETH", Sell, 2.0, 15.0, 10)];
      && Replay(trades).slices == [Slice("ETH", 2.0, 10.0, 15.0, 0, 10)]
      && Replay(trades).slices[0].Gain() == 10.0
      && PeriodOf(Replay(trades).slices[0]) == ShortTerm
      && QueueOf(Replay(trades), "ETH") == [Lot(10.0, 1.0, 0)]
  {
    var trades := [Trade("ETH", Buy, 3.0, 10.0, 0), Trade("ETH", Sell, 2.0, 15.0, 10)];
    assert trades[..0] == [];
    assert trades[..1][..0] == [];
    assert trades[..2] == trades;
    var s0 := ReplayState(map[], []);
    assert Replay(trades[..1]) == ReplayTrade(s0, trades[0]);
    var s1 := Replay(trades[..1]);
    assert QueueOf(s1, "ETH") == [Lot(10.0, 3.0, 0)];
    var m := MatchSell(QueueOf(s1, "ETH"), 2.0, trades[1]);
    assert [Lot(10.0, 3.0, 0)][1..] == [];
    assert [Lot(10.0, 1.0, 0)] + [] == [Lot(10.0, 1.0, 0)];
    assert MatchSell([Lot(10.0, 1.0, 0)], 0.0, trades[1]) == MatchOutcome([Lot(10.0, 1.0, 0)], [], 0.0);
    assert m == MatchOutcome([Lot(10.0, 1.0, 0)], [Slice("ETH", 2.0, 10.0, 15.0, 0, 10)], 0.0);
    assert Replay(trades) == ReplayTrade(s1, trades[1]);
  }
}

=== FILE: holdings.dfy ===
/**
 The holdings rebuild: a second, independent pass over the same chronological
 trade history that keeps one running (quantity, weighted-average price) per
 symbol, fails on any SELL larger than what is held, and keeps only the symbols
 still held at the end.
 */
module Holdings {
  import opened Ledger

  /** What is held of one symbol and its weighted-average cost price. */
  datatype Holding = Holding(quantity: real, price: real)

  /** The consistency violation the rebuild throws: a SELL of more than is available. */
  datatype RebuildError = InvalidSell(symbol: string, available: real)

  /** Holdings by symbol. */
  type Book = map<string, Holding>

  /** The entry of `symbol`; a symbol with no entry starts at (0, 0). */
  function HoldingOf(m: Book, symbol: string): Holding
  {
    if symbol in m then m[symbol] else Holding(0.0, 0.0)
  }

  function QuantityOf(m: Book, symbol: string): real
  {
    HoldingOf(m, symbol).quantity
  }

  function PriceOf(m: Book, symbol: string): real
  {
    HoldingOf(m, symbol).price
  }

  /** The entry after a BUY: quantities add, and the price becomes the total cost over the new quantity. */
  function BuyInto(h: Holding, t: Trade): (r: Holding)
    requires h.quantity + t.quantity != 0.0
    ensures r.quantity == h.quantity + t.quantity
    ensures r.quantity * r.price == h.quantity * h.price + t.quantity * t.price
    ensures h.quantity == 0.0 ==> r.price == t.price
  {
    var totalCost := h.quantity * h.price + t.quantity * t.price;
    var newQty := h.quantity + t.quantity;
    Holding(newQty, totalCost / newQty)
  }

  predicate NonNegative(m: Book)
  {
    forall s :: s in m ==> m[s].quantity >= 0.0
  }

  /**
   Applies one trade. A BUY adds its quantity and blends its price into the
   average so that quantity times average stays the total cost; after a full
   sell-out the average restarts at the trade price. A SELL of no more than is
   held lowers the quantity and keeps the average; a larger SELL fails with the
   quantity that was available. No other symbol's entry changes.
   */
  function ApplyTrade(m: Book, t: Trade): (r: Result<Book, RebuildError>)
    requires NonNegative(m) && t.quantity > 0.0
    ensures r.Success? ==> NonNegative(r.value) && t.symbol in r.value
    ensures r.Success? ==> forall s :: s != t.symbol ==>
      (s in r.value <==> s in m) && (s in m ==> r.value[s] == m[s])
    ensures t.side == Buy ==>
      && r.Success?
      && r.value[t.symbol].quantity == QuantityOf(m, t.symbol) + t.quantity
      && r.value[t.symbol].quantity * r.value[t.symbol].price
         == QuantityOf(m, t.symbol) * PriceOf(m, t.symbol) + t.quantity * t.price
      && (QuantityOf(m, t.symbol) == 0.0 ==> r.value[t.symbol].price == t.price)
    ensures t.side == Sell ==> (r.Success? <==> t.quantity <= QuantityOf(m, t.symbol))
    ensures t.side == Sell && r.Success? ==>
      r.value[t.symbol] == Holding(QuantityOf(m, t.symbol) - t.quantity, PriceOf(m, t.symbol))
    ensures r.Failure? ==> r.error == InvalidSell(t.symbol, QuantityOf(m, t.symbol))
  {
    var h := HoldingOf(m, t.symbol);
    match t.side
    case Buy => Success(m[t.symbol := BuyInto(h, t)])
    case Sell =>
      if t.quantity > h.quantity then Failure(InvalidSell(t.symbol, h.quantity))
      else Success(m[t.symbol := h.(quantity := h.quantity - t.quantity)])
  }

  lemma WellFormedPrefix(trades: seq<Trade>, k: nat)
    requires WellFormed(trades) && k <= |trades|
    ensures WellFormed(trades[..k])
  {
    forall i | 0 <= i < k ensures trades[..k][i].quantity > 0.0 {
      assert trades[..k][i] == trades[i];
    }
  }

  /**
   Replays the whole history from an empty book, stopping at the first SELL
   that exceeds its holding; every symbol seen keeps an entry, sold out or not.
   */
  function RebuildAll(trades: seq<Trade>): (r: Result<Book, RebuildError>)
    requires WellFormed(trades)
    ensures r.Success? ==> NonNegative(r.value)
    decreases |trades|
  {
    if |trades| == 0 then Success(map[])
    else
      WellFormedPrefix(trades, |trades| - 1);
      match RebuildAll(trades[..|trades| - 1])
      case Failure(e) => Failure(e)
      case Success(m) => ApplyTrade(m, trades[|trades| - 1])
  }

  /** The entries still held. */
  function Snapshot(m: Book): Book
  {
    map s | s in m && m[s].quantity > 0.0 :: m[s]
  }

  /**
   The holdings a rebuild saves, or the error. It fails exactly when some prefix
   of the history oversells, and only positive quantities are saved.
   */
  function RebuildHoldings(trades: seq<Trade>): (r: Result<Book, RebuildError>)
    requires WellFormed(trades)
    ensures r.Success? <==> NeverOversold(trades)
    ensures r.Success? ==> forall s :: s in r.value ==> r.value[s].quantity > 0.0
  {
    RebuildSucceedsIffNeverOversold(trades);
    match RebuildAll(trades)
    case Failure(e) => Failure(e)
    case Success(m) => Success(Snapshot(m))
  }

  /**
   What a rebuild leaves in the store. The old holdings are cleared first and
   the whole rebuild is one transaction, so a failed rebuild leaves the store as
   it was and a successful one replaces it entirely.
   */
  function Commit(stored: Book, trades: seq<Trade>): (r: Book)
    requires WellFormed(trades)
    ensures !NeverOversold(trades) ==> r == stored
    ensures NeverOversold(trades) ==> r == RebuildHoldings(trades).value
    ensures NeverOversold(trades) ==> forall s :: s in r ==> r[s].quantity > 0.0
  {
    match RebuildHoldings(trades)
    case Failure(_) => stored
    case Success(m) => m
  }

  /**
   A successful rebuild holds, for every symbol, what was bought minus what was
   sold, and no prefix of the history sold more than it had bought.
   */
  lemma {:induction false} RebuildConservesQuantity(trades: seq<Trade>, symbol: string)
    requires WellFormed(trades) && RebuildAll(trades).Success?
    ensures QuantityOf(RebuildAll(trades).value, symbol) == NetQuantity(trades, symbol)
    ensures forall i :: 0 <= i <= |trades| ==> NetQuantity(trades[..i], symbol) >= 0.0
    decreases |trades|
  {
    if |trades| > 0 {
      var prefix := trades[..|trades| - 1];
      var t := trades[|trades| - 1];
      WellFormedPrefix(trades, |trades| - 1);
      RebuildConservesQuantity(prefix, symbol);
      var m := RebuildAll(prefix).value;
      var r := RebuildAll(trades).value;
      assert QuantityOf(r, symbol) == QuantityOf(m, symbol) + QuantityDelta(t, symbol);
      forall i | 0 <= i <= |trades| ensures NetQuantity(trades[..i], symbol) >= 0.0 {
        if i < |trades| {
          assert trades[..i] == prefix[..i];
        } else {
          assert trades[..i] == trades;
        }
      }
    }
  }

  /** The rebuild fails exactly when some prefix of the history sells more of a symbol than it bought. */
  lemma {:induction false} RebuildSucceedsIffNeverOversold(trades: seq<Trade>)
    requires WellFormed(trades)
    ensures RebuildAll(trades).Success? <==> NeverOversold(trades)
    decreases |trades|
  {
    if RebuildAll(trades).Success? {
      forall i, symbol | 0 <= i <= |trades| ensures NetQuantity(trades[..i], symbol) >= 0.0 {
        RebuildConservesQuantity(trades, symbol);
      }
    }
    if |trades| > 0 && NeverOversold(trades) {
      var prefix := trades[..|trades| - 1];
      var t := trades[|trades| - 1];
      WellFormedPrefix(trades, |trades| - 1);
      assert NeverOversold(prefix) by {
        forall i, symbol | 0 <= i <= |prefix| ensures NetQuantity(prefix[..i], symbol) >= 0.0 {
          assert prefix[..i] == trades[..i];
        }
      }
      RebuildSucceedsIffNeverOversold(prefix);
      var m := RebuildAll(prefix).value;
      RebuildConservesQuantity(prefix, t.symbol);
      assert trades[..|trades|] == trades;
      assert NetQuantity(trades, t.symbol) >= 0.0;
      assert RebuildAll(trades) == ApplyTrade(m, t);
    }
  }

  /**
   The saved holdings are exactly the symbols whose net quantity is positive,
   each with that net quantity.
   */
  lemma RebuildKeepsHeldSymbols(trades: seq<Trade>, symbol: string)
    requires WellFormed(trades) && RebuildHoldings(trades).Success?
    ensures symbol in RebuildHoldings(trades).value <==> NetQuantity(trades, symbol) > 0.0
    ensures symbol in RebuildHoldings(trades).value ==>
      RebuildHoldings(trades).value[symbol].quantity == NetQuantity(trades, symbol)
  {
    RebuildConservesQuantity(trades, symbol);
  }

  lemma Distribute(a: real, b: real, c: real)
    ensures (a + b) * c == a * c + b * c
  {
  }

  lemma ScaleWithin(k: real, x: real, lo: real, hi: real)
    requires k >= 0.0 && lo <= x <= hi
    ensures k * lo <= k * x <= k * hi
  {
  }

  lemma SumWithin(a: real, x: real, c: real, b: real, y: real, d: real)
    requires a <= x <= c && b <= y <= d
    ensures a + b <= x + y <= c + d
  {
  }

  lemma CancelWithin(k: real, p: real, lo: real, hi: real)
    requires k > 0.0 && k * lo <= k * p <= k * hi
    ensures lo <= p <= hi
  {
  }

  /** A BUY at a price in [lo, hi] keeps an average in [lo, hi]: the new average is a convex combination. */
  lemma BlendStaysWithin(qty: real, avg: real, tradeQty: real, tradePrice: real, price: real, lo: real, hi: real)
    requires qty >= 0.0 && tradeQty > 0.0
    requires lo <= tradePrice <= hi
    requires qty > 0.0 ==> lo <= avg <= hi
    requires (qty + tradeQty) * price == qty * avg + tradeQty * tradePrice
    ensures lo <= price <= hi
  {
    if qty > 0.0 {
      ScaleWithin(qty, avg, lo, hi);
    } else {
      assert qty == 0.0;
    }
    ScaleWithin(tradeQty, tradePrice, lo, hi);
    SumWithin(qty * lo, qty * avg, qty * hi, tradeQty * lo, tradeQty * tradePrice, tradeQty * hi);
    Distribute(qty, tradeQty, lo);
    Distribute(qty, tradeQty, hi);
    CancelWithin(qty + tradeQty, price, lo, hi);
  }

  lemma BuyIntoStaysWithin(h: Holding, t: Trade, lo: real, hi: real)
    requires h.quantity >= 0.0 && t.quantity > 0.0
    requires lo <= t.price <= hi
    requires h.quantity > 0.0 ==> lo <= h.price <= hi
    ensures lo <= BuyInto(h, t).price <= hi
  {
    BlendStaysWithin(h.quantity, h.price, t.quantity, t.price, BuyInto(h, t).price, lo, hi);
  }

  lemma BuyStaysWithin(m: Book, t: Trade, lo: real, hi: real)
    requires NonNegative(m) && t.quantity > 0.0 && t.side == Buy
    requires lo <= t.price <= hi
    requires t.symbol in m ==> lo <= m[t.symbol].price <= hi
    ensures lo <= ApplyTrade(m, t).value[t.symbol].price <= hi
  {
    var h := HoldingOf(m, t.symbol);
    assert ApplyTrade(m, t).value[t.symbol] == BuyInto(h, t);
    BuyIntoStaysWithin(h, t, lo, hi);
  }

  /**
   While a symbol is on the books its average price lies between the lowest
   and the highest BUY price paid for it.
   */
  lemma {:induction false} AveragePriceWithinBuyRange(trades: seq<Trade>, symbol: string, lo: real, hi: real)
    requires WellFormed(trades) && BuyPricesWithin(trades, symbol, lo, hi)
    requires RebuildAll(trades).Success?
    ensures symbol in RebuildAll(trades).value ==> lo <= RebuildAll(trades).value[symbol].price <= hi
    decreases |trades|
  {
    if |trades| > 0 {
      var prefix := trades[..|trades| - 1];
      var t := trades[|trades| - 1];
      assert t.symbol == symbol && t.side == Buy ==> lo <= t.price <= hi;
      WellFormedPrefix(trades, |trades| - 1);
      assert BuyPricesWithin(prefix, symbol, lo, hi) by {
        forall i | 0 <= i < |prefix| ensures prefix[i] == trades[i] {}
      }
      AveragePriceWithinBuyRange(prefix, symbol, lo, hi);
      var m := RebuildAll(prefix).value;
      assert RebuildAll(trades) == ApplyTrade(m, t);
      var r := RebuildAll(trades).value;
      if t.symbol != symbol {
        assert symbol in r ==> r[symbol] == m[symbol];
      } else if t.side == Buy {
        BuyStaysWithin(m, t, lo, hi);
      } else {
        assert symbol in m;
        assert r[symbol].price == m[symbol].price;
      }
    }
  }

  /** The saved holdings keep the average-price bound. */
  lemma SavedAveragePriceWithinBuyRange(trades: seq<Trade>, symbol: string, lo: real, hi: real)
    requires WellFormed(trades) && BuyPricesWithin(trades, symbol, lo, hi)
    requires RebuildHoldings(trades).Success?
    ensures symbol in RebuildHoldings(trades).value ==>
      lo <= RebuildHoldings(trades).value[symbol].price <= hi
  {
    AveragePriceWithinBuyRange(trades, symbol, lo, hi);
  }

  /**
   A rebuild depends on the trade history alone: whatever was stored before,
   committing gives the same store, committing twice changes nothing more, and
   a failed rebuild keeps what was stored.
   */
  lemma CommitIgnoresStoredHoldings(stored: Book, other: Book, trades: seq<Trade>)
    requires WellFormed(trades)
    ensures RebuildHoldings(trades).Success? ==> Commit(stored, trades) == Commit(other, trades)
    ensures Commit(Commit(stored, trades), trades) == Commit(stored, trades)
    ensures RebuildHoldings(trades).Failure? ==> Commit(stored, trades) == stored
  {
  }
}

=== FILE: ledger.dfy ===
/**
 The trade ledger shared by both reductions: one owner's trade history,
 already sorted by execution time, as the repository query hands it over.
 Quantities and prices are exact reals; execution times are whole day numbers.
 */
module Ledger {

  /** The side of a trade. */
  datatype Side = Buy | Sell

  /** One executed trade. The fee the service stores is read by neither reduction. */
  datatype Trade = Trade(symbol: string, side: Side, quantity: real, price: real, day: int)

  /** Success or failure of an operation that can throw. */
  datatype Result<+T, +E> = Success(value: T) | Failure(error: E)

  /** Every trade carries a positive quantity (a zero-quantity BUY would divide by zero). */
  predicate WellFormed(trades: seq<Trade>)
  {
    forall i :: 0 <= i < |trades| ==> trades[i].quantity > 0.0
  }

  /** The order the repository returns trades in: ascending execution time. */
  predicate Chronological(trades: seq<Trade>)
  {
    forall i, j :: 0 <= i < j < |trades| ==> trades[i].day <= trades[j].day
  }

  /** Signed effect of one trade on the quantity held of `symbol`. */
  function QuantityDelta(t: Trade, symbol: string): real
  {
    if t.symbol != symbol then 0.0
    else if t.side == Buy then t.quantity
    else -t.quantity
  }

  /** Everything bought of `symbol` minus everything sold of it. */
  function NetQuantity(trades: seq<Trade>, symbol: string): real
    decreases |trades|
  {
    if |trades| == 0 then 0.0
    else NetQuantity(trades[..|trades| - 1], symbol) + QuantityDelta(trades[|trades| - 1], symbol)
  }

  /** No prefix of the history sells more of any symbol than it bought. */
  ghost predicate NeverOversold(trades: seq<Trade>)
  {
    forall i, symbol :: 0 <= i <= |trades| ==> NetQuantity(trades[..i], symbol) >= 0.0
  }

  /** Every BUY of `symbol` was priced within [lo, hi]. */
  predicate BuyPricesWithin(trades: seq<Trade>, symbol: string, lo: real, hi: real)
  {
    forall i :: 0 <= i < |trades| && trades[i].symbol == symbol && trades[i].side == Buy ==>
      lo <= trades[i].price <= hi
  }

  function Min(a: real, b: real): real
  {
    if a <= b then a else b
  }
}

=== FILE: lot_queue.dfy ===
/**
 The per-asset queue of open purchase lots and the FIFO matching of one SELL
 against it: the inner `while` loop of the tax engine.
 */
module LotQueue {
  import opened Ledger

  /** An open purchase lot: what is left of one BUY. */
  datatype Lot = Lot(price: real, quantity: real, day: int)

  /** One lot-slice consumed by a SELL: the realized-gain record before tax. */
  datatype Slice = Slice(symbol: string, quantity: real, buyPrice: real, sellPrice: real,
                         buyDay: int, sellDay: int)
  {
    /** Whole days between acquisition and disposal. */
    function DaysHeld(): int
    {
      sellDay - buyDay
    }

    /** Signed realized gain of the slice. */
    function Gain(): real
    {
      (sellPrice - buyPrice) * quantity
    }
  }

  /** What matching one SELL leaves behind. */
  datatype MatchOutcome = MatchOutcome(rest: seq<Lot>, slices: seq<Slice>, unmatched: real)

  /** The lot a BUY opens. */
  function LotOf(t: Trade): Lot
  {
    Lot(t.price, t.quantity, t.day)
  }

  function TotalQuantity(q: seq<Lot>): real
  {
    if |q| == 0 then 0.0 else q[0].quantity + TotalQuantity(q[1..])
  }

  function SlicedQuantity(s: seq<Slice>): real
  {
    if |s| == 0 then 0.0 else s[0].quantity + SlicedQuantity(s[1..])
  }

  predicate PositiveLots(q: seq<Lot>)
  {
    forall i :: 0 <= i < |q| ==> q[i].quantity > 0.0
  }

  /** Slice `s` was cut from lot `lot` by the SELL `sell`. */
  predicate CutFrom(s: Slice, lot: Lot, sell: Trade)
  {
    && s.symbol == sell.symbol
    && s.sellPrice == sell.price
    && s.sellDay == sell.day
    && s.buyPrice == lot.price
    && s.buyDay == lot.day
  }

  /**
   The queue left after the first `k` lots were sliced: either they were all
   used up, or the k-th was only partly used and stays at the head, reduced.
   */
  predicate FifoRest(q: seq<Lot>, slices: seq<Slice>, rest: seq<Lot>)
    requires |slices| <= |q|
  {
    var k := |slices|;
    || rest == q[k..]
    || (&& 0 < k
        && rest == [q[k - 1].(quantity := q[k - 1].quantity - slices[k - 1].quantity)] + q[k..]
        && rest[0].quantity > 0.0)
  }

  /**
   Matches `remaining` units of the SELL `sell` against `q`, oldest lot first.
   Each step uses min(remaining, head quantity) of the head lot, drops the head
   once it has nothing left, and stops when the sell is covered or the queue is
   empty; an uncovered remainder is returned, not reported.
   */
  function MatchSell(q: seq<Lot>, remaining: real, sell: Trade): (r: MatchOutcome)
    ensures SlicedQuantity(r.slices) + r.unmatched == remaining
    ensures TotalQuantity(r.rest) + SlicedQuantity(r.slices) == TotalQuantity(q)
    ensures remaining >= 0.0 ==> r.unmatched >= 0.0
    ensures r.unmatched > 0.0 ==> r.rest == []
    ensures |r.slices| <= |q|
    decreases |q| + (if remaining > 0.0 then 1 else 0)
  {
    if remaining <= 0.0 || |q| == 0 then MatchOutcome(q, [], remaining)
    else
      var head := q[0];
      var used := Min(remaining, head.quantity);
      var slice := Slice(sell.symbol, used, head.price, sell.price, head.day, sell.day);
      var left := head.quantity - used;
      var queue := if left <= 0.0 then q[1..] else [head.(quantity := left)] + q[1..];
      assert TotalQuantity(queue) + used == TotalQuantity(q) by {
        if left > 0.0 {
          assert queue[1..] == q[1..];
        }
      }
      var tail := MatchSell(queue, remaining - used, sell);
      assert ([slice] + tail.slices)[1..] == tail.slices;
      MatchOutcome(tail.rest, [slice] + tail.slices, tail.unmatched)
  }

  /** The i-th slice of a SELL is cut from the i-th oldest lot; all but the last use their whole lot. */
  lemma {:induction false} MatchSellFollowsQueue(q: seq<Lot>, remaining: real, sell: Trade)
    ensures var r := MatchSell(q, remaining, sell);
      && (forall i :: 0 <= i < |r.slices| ==> CutFrom(r.slices[i], q[i], sell))
      && (forall i :: 0 <= i < |r.slices| - 1 ==> r.slices[i].quantity == q[i].quantity)
    decreases |q| + (if remaining > 0.0 then 1 else 0)
  {
    var r := MatchSell(q, remaining, sell);
    if remaining > 0.0 && |q| > 0 {
      var head := q[0];
      var used := Min(remaining, head.quantity);
      if head.quantity - used <= 0.0 {
        var queue := q[1..];
        MatchSellFollowsQueue(queue, remaining - used, sell);
        var tail := MatchSell(queue, remaining - used, sell);
        assert r.slices == [r.slices[0]] + tail.slices;
        forall i | 1 <= i < |r.slices|
          ensures CutFrom(r.slices[i], q[i], sell)
          ensures i < |r.slices| - 1 ==> r.slices[i].quantity == q[i].quantity
        {
          assert r.slices[i] == tail.slices[i - 1] && q[i] == queue[i - 1];
        }
      }
    }
  }

  /** A SELL smaller than the oldest lot takes one slice of it and leaves the rest of it at the head. */
  lemma MatchSellPartialHead(q: seq<Lot>, remaining: real, sell: Trade)
    requires |q| > 0 && 0.0 < remaining < q[0].quantity
    ensures MatchSell(q, remaining, sell)
      == MatchOutcome([q[0].(quantity := q[0].quantity - remaining)] + q[1..],
                      [Slice(sell.symbol, remaining, q[0].price, sell.price, q[0].day, sell.day)], 0.0)
  {
    var queue := [q[0].(quantity := q[0].quantity - remaining)] + q[1..];
    assert MatchSell(queue, 0.0, sell) == MatchOutcome(queue, [], 0.0);
  }

  /** A SELL at least as large as the oldest lot uses all of it and goes on with the next lots. */
  lemma MatchSellWholeHead(q: seq<Lot>, remaining: real, sell: Trade)
    requires |q| > 0 && 0.0 < remaining && q[0].quantity <= remaining
    ensures var tail := MatchSell(q[1..], remaining - q[0].quantity, sell);
      MatchSell(q, remaining, sell)
      == MatchOutcome(tail.rest, [Slice(sell.symbol, q[0].quantity, q[0].price, sell.price, q[0].day, sell.day)] + tail.slices,
                      tail.unmatched)
  {
  }

  /** A FIFO rest of the lots behind the head is a FIFO rest of the whole queue once the head's slice is put in front. */
  lemma FifoRestAfterHead(q: seq<Lot>, first: Slice, slices: seq<Slice>, rest: seq<Lot>)
    requires |q| > 0 && |slices| <= |q| - 1 && FifoRest(q[1..], slices, rest)
    ensures FifoRest(q, [first] + slices, rest)
  {
    var k := |slices|;
    var all := [first] + slices;
    assert q[k + 1..] == q[1..][k..];
    if rest != q[1..][k..] {
      assert q[1..][k - 1] == q[k];
      assert all[k] == slices[k - 1];
    }
  }

  /**
   After a SELL the lots behind the last sliced one are untouched and in order;
   the last sliced lot is either gone or stays at the head with less quantity.
   */
  lemma {:induction false} MatchSellLeavesFifoRest(q: seq<Lot>, remaining: real, sell: Trade)
    ensures var r := MatchSell(q, remaining, sell); FifoRest(q, r.slices, r.rest)
    decreases |q| + (if remaining > 0.0 then 1 else 0)
  {
    var r := MatchSell(q, remaining, sell);
    if remaining <= 0.0 || |q| == 0 {
      assert r.rest == q[0..];
    } else if remaining < q[0].quantity {
      MatchSellPartialHead(q, remaining, sell);
    } else {
      var queue := q[1..];
      MatchSellWholeHead(q, remaining, sell);
      MatchSellLeavesFifoRest(queue, remaining - q[0].quantity, sell);
      var tail := MatchSell(queue, remaining - q[0].quantity, sell);
      FifoRestAfterHead(q, r.slices[0], tail.slices, tail.rest);
    }
  }

  /** Positive lots yield positive slices, none larger than its lot, and leave positive lots. */
  lemma {:induction false} MatchSellKeepsLotsPositive(q: seq<Lot>, remaining: real, sell: Trade)
    requires PositiveLots(q)
    ensures var r := MatchSell(q, remaining, sell);
      && PositiveLots(r.rest)
      && forall i :: 0 <= i < |r.slices| ==> 0.0 < r.slices[i].quantity <= q[i].quantity
    decreases |q| + (if remaining > 0.0 then 1 else 0)
  {
    var r := MatchSell(q, remaining, sell);
    if remaining > 0.0 && |q| > 0 {
      var head := q[0];
      var used := Min(remaining, head.quantity);
      if head.quantity - used <= 0.0 {
        var queue := q[1..];
        MatchSellKeepsLotsPositive(queue, remaining - used, sell);
        var tail := MatchSell(queue, remaining - used, sell);
        assert r.slices == [r.slices[0]] + tail.slices;
        forall i | 1 <= i < |r.slices|
          ensures 0.0 < r.slices[i].quantity <= q[i].quantity
        {
          assert r.slices[i] == tail.slices[i - 1] && q[i] == queue[i - 1];
        }
      }
    }
  }

  lemma {:induction false} TotalQuantityAppend(q: seq<Lot>, lot: Lot)
    ensures TotalQuantity(q + [lot]) == TotalQuantity(q) + lot.quantity
    decreases |q|
  {
    if |q| > 0 {
      assert (q + [lot])[1..] == q[1..] + [lot];
      TotalQuantityAppend(q[1..], lot);
    } else {
      assert (q + [lot])[1..] == [];
    }
  }

  /** A SELL the open lots cover is matched in full and removes exactly its quantity from the queue. */
  lemma MatchSellCovered(q: seq<Lot>, remaining: real, sell: Trade)
    requires 0.0 <= remaining <= TotalQuantity(q)
    ensures MatchSell(q, remaining, sell).unmatched == 0.0
    ensures TotalQuantity(MatchSell(q, remaining, sell).rest) == TotalQuantity(q) - remaining
  {
    assert TotalQuantity([]) == 0.0;
  }
}

=== FILE: tax_lots.dfy ===
/**
 The ledger replay of the tax engine: one pass over the trade history that keeps
 a FIFO queue of open lots per asset, enqueues every BUY and matches every SELL
 against its asset's queue, collecting the lot-slices in sell-processing order.
 */
module TaxLots {
  import opened Ledger
  import opened LotQueue

  /** The engine's state between two trades. */
  datatype ReplayState = ReplayState(queues: map<string, seq<Lot>>, slices: seq<Slice>)

  /** The open lots of `symbol`; an asset never bought has none. */
  function QueueOf(st: ReplayState, symbol: string): seq<Lot>
  {
    if symbol in st.queues then st.queues[symbol] else []
  }

  /**
   Replays one trade. A BUY appends a lot to its asset's queue; a SELL whose
   asset has no queue, or an empty one, is skipped, and otherwise is matched
   FIFO. Skipping is the same as matching against no lots, and no other asset's
   queue is touched.
   */
  function ReplayTrade(st: ReplayState, t: Trade): (r: ReplayState)
    ensures forall s :: s != t.symbol ==> QueueOf(r, s) == QueueOf(st, s)
    ensures t.side == Buy ==>
      && QueueOf(r, t.symbol) == QueueOf(st, t.symbol) + [LotOf(t)]
      && r.slices == st.slices
    ensures t.side == Sell ==>
      var m := MatchSell(QueueOf(st, t.symbol), t.quantity, t);
      && QueueOf(r, t.symbol) == m.rest
      && r.slices == st.slices + m.slices
  {
    match t.side
    case Buy =>
      st.(queues := st.queues[t.symbol := QueueOf(st, t.symbol) + [LotOf(t)]])
    case Sell =>
      if t.symbol !in st.queues || st.queues[t.symbol] == [] then st
      else
        var m := MatchSell(st.queues[t.symbol], t.quantity, t);
        ReplayState(st.queues[t.symbol := m.rest], st.slices + m.slices)
  }

  /** Slice `s` was cut by a SELL of `trades`: same asset, sell price and sell day. */
  ghost predicate SoldIn(s: Slice, trades: seq<Trade>)
  {
    exists i :: 0 <= i < |trades| && trades[i].side == Sell && trades[i].symbol == s.symbol
      && trades[i].price == s.sellPrice && trades[i].day == s.sellDay
  }

  /**
   Replays a whole history from empty queues. Slices come only from SELLs:
   each one carries the asset, price and day of a SELL of the history.
   */
  function Replay(trades: seq<Trade>): (r: ReplayState)
    ensures forall k :: 0 <= k < |r.slices| ==> SoldIn(r.slices[k], trades)
    decreases |trades|
  {
    if |trades| == 0 then ReplayState(map[], [])
    else
      var prefix := trades[..|trades| - 1];
      var t := trades[|trades| - 1];
      var st := Replay(prefix);
      ReplaySlicesSoldIn(st, trades);
      ReplayTrade(st, t)
  }

  lemma SoldInLonger(s: Slice, trades: seq<Trade>)
    requires |trades| > 0 && SoldIn(s, trades[..|trades| - 1])
    ensures SoldIn(s, trades)
  {
    var prefix := trades[..|trades| - 1];
    var i :| 0 <= i < |prefix| && prefix[i].side == Sell && prefix[i].symbol == s.symbol
      && prefix[i].price == s.sellPrice && prefix[i].day == s.sellDay;
    assert prefix[i] == trades[i];
  }

  /** The slices one SELL cuts carry that SELL's asset, price and day. */
  lemma MatchSellSoldIn(q: seq<Lot>, t: Trade, trades: seq<Trade>)
    requires |trades| > 0 && t == trades[|trades| - 1] && t.side == Sell
    ensures forall k :: 0 <= k < |MatchSell(q, t.quantity, t).slices| ==>
      SoldIn(MatchSell(q, t.quantity, t).slices[k], trades)
  {
    var m := MatchSell(q, t.quantity, t);
    MatchSellFollowsQueue(q, t.quantity, t);
    forall k | 0 <= k < |m.slices| ensures SoldIn(m.slices[k], trades) {
      assert CutFrom(m.slices[k], q[k], t);
      var i := |trades| - 1;
      assert trades[i].symbol == m.slices[k].symbol && trades[i].price == m.slices[k].sellPrice
        && trades[i].day == m.slices[k].sellDay;
    }
  }

  /** One more trade keeps every slice traceable to a SELL of the longer history. */
  lemma ReplaySlicesSoldIn(st: ReplayState, trades: seq<Trade>)
    requires |trades| > 0
    requires forall k :: 0 <= k < |st.slices| ==> SoldIn(st.slices[k], trades[..|trades| - 1])
    ensures var r := ReplayTrade(st, trades[|trades| - 1]);
      forall k :: 0 <= k < |r.slices| ==> SoldIn(r.slices[k], trades)
  {
    var t := trades[|trades| - 1];
    var r := ReplayTrade(st, t);
    forall k | 0 <= k < |st.slices| ensures SoldIn(st.slices[k], trades) {
      SoldInLonger(st.slices[k], trades);
    }
    if t.side == Sell {
      var m := MatchSell(QueueOf(st, t.symbol), t.quantity, t);
      MatchSellSoldIn(QueueOf(st, t.symbol), t, trades);
      assert r.slices == st.slices + m.slices;
      forall k | |st.slices| <= k < |r.slices| ensures SoldIn(r.slices[k], trades) {
        var j := k - |st.slices|;
        assert r.slices[k] == m.slices[j];
        assert SoldIn(m.slices[j], trades);
      }
    } else {
      assert r.slices == st.slices;
    }
  }

  /** The part of trade `t` the engine could not match when it reached it in state `st`. */
  function Shortfall(st: ReplayState, t: Trade): real
  {
    if t.side == Sell then MatchSell(QueueOf(st, t.symbol), t.quantity, t).unmatched else 0.0
  }

  /** Every SELL of the history was covered entirely by open lots. */
  predicate FullyMatched(trades: seq<Trade>)
  {
    forall i :: 0 <= i < |trades| ==> Shortfall(Replay(trades[..i]), trades[i]) == 0.0
  }

  /** The lots the BUYs of `symbol` opened, in trade order. */
  function BuyLots(trades: seq<Trade>, symbol: string): seq<Lot>
    decreases |trades|
  {
    if |trades| == 0 then []
    else
      var t := trades[|trades| - 1];
      BuyLots(trades[..|trades| - 1], symbol) + (if t.symbol == symbol && t.side == Buy then [LotOf(t)] else [])
  }

  /**
   `q` is what FIFO consumption leaves of `lots`: a suffix of them whose head
   may have been partly used.
   */
  predicate FifoRemainder(q: seq<Lot>, lots: seq<Lot>)
  {
    && |q| <= |lots|
    && (|q| > 0 ==>
          var k := |lots| - |q|;
          && q[1..] == lots[k + 1..]
          && q[0].price == lots[k].price
          && q[0].day == lots[k].day
          && 0.0 < q[0].quantity <= lots[k].quantity)
  }

  lemma FifoRemainderIsPositive(q: seq<Lot>, lots: seq<Lot>)
    requires FifoRemainder(q, lots) && PositiveLots(lots)
    ensures PositiveLots(q)
  {
    var k := |lots| - |q|;
    forall i | 1 <= i < |q|
      ensures q[i].quantity > 0.0
    {
      assert q[i] == q[1..][i - 1] == lots[k + i];
    }
  }

  lemma FifoRemainderAppend(q: seq<Lot>, lots: seq<Lot>, lot: Lot)
    requires FifoRemainder(q, lots) && lot.quantity > 0.0
    ensures FifoRemainder(q + [lot], lots + [lot])
  {
    var k := |lots| - |q|;
    if |q| > 0 {
      assert (q + [lot])[1..] == q[1..] + [lot];
      assert (lots + [lot])[k + 1..] == lots[k + 1..] + [lot];
    } else {
      assert (q + [lot])[1..] == [] == (lots + [lot])[k + 1..];
    }
  }

  /** Dropping the first `j` open lots keeps a FIFO remainder. */
  lemma FifoRemainderDrop(q: seq<Lot>, lots: seq<Lot>, j: nat)
    requires FifoRemainder(q, lots) && PositiveLots(q) && j <= |q|
    ensures FifoRemainder(q[j..], lots)
  {
    var k := |lots| - |q|;
    if |q[j..]| > 0 && j > 0 {
      assert q[j..][0] == q[j] == q[1..][j - 1] == lots[k + j];
      assert q[j..][1..] == q[j + 1..] == q[1..][j..] == lots[k + 1..][j..];
    }
  }

  /** Replacing the j-th open lot by a smaller, still positive part of it, and dropping those before, keeps a FIFO remainder. */
  lemma FifoRemainderReduce(q: seq<Lot>, lots: seq<Lot>, j: nat, lot: Lot)
    requires FifoRemainder(q, lots) && PositiveLots(q) && 0 < j <= |q|
    requires lot.price == q[j - 1].price && lot.day == q[j - 1].day
    requires 0.0 < lot.quantity <= q[j - 1].quantity
    ensures FifoRemainder([lot] + q[j..], lots)
  {
    var k := |lots| - |q|;
    var r := [lot] + q[j..];
    assert r[1..] == q[j..];
    if j > 1 {
      assert q[j - 1] == q[1..][j - 2] == lots[k + j - 1];
      assert q[j..] == q[1..][j - 1..] == lots[k + 1..][j - 1..];
    }
  }

  lemma FifoRemainderMatch(q: seq<Lot>, lots: seq<Lot>, remaining: real, sell: Trade)
    requires FifoRemainder(q, lots) && PositiveLots(lots)
    ensures FifoRemainder(MatchSell(q, remaining, sell).rest, lots)
  {
    var r := MatchSell(q, remaining, sell);
    var j := |r.slices|;
    FifoRemainderIsPositive(q, lots);
    MatchSellLeavesFifoRest(q, remaining, sell);
    MatchSellKeepsLotsPositive(q, remaining, sell);
    if r.rest == q[j..] {
      FifoRemainderDrop(q, lots, j);
    } else {
      FifoRemainderReduce(q, lots, j, r.rest[0]);
    }
  }

  /**
   Lots are queued in BUY order and consumed oldest first: after any prefix of
   the history, the queue of an asset is a suffix of the lots its BUYs opened,
   whose head alone may have been partly sold; every open lot is positive.
   */
  lemma {:induction false} ReplayQueueIsFifoRemainder(trades: seq<Trade>, symbol: string)
    requires WellFormed(trades)
    ensures FifoRemainder(QueueOf(Replay(trades), symbol), BuyLots(trades, symbol))
    ensures PositiveLots(BuyLots(trades, symbol))
    ensures PositiveLots(QueueOf(Replay(trades), symbol))
    decreases |trades|
  {
    if |trades| > 0 {
      var prefix := trades[..|trades| - 1];
      var t := trades[|trades| - 1];
      assert WellFormed(prefix) by {
        forall i | 0 <= i < |prefix| ensures prefix[i].quantity > 0.0 {
          assert prefix[i] == trades[i];
        }
      }
      ReplayQueueIsFifoRemainder(prefix, symbol);
      var st := Replay(prefix);
      var q := QueueOf(st, symbol);
      var lots := BuyLots(prefix, symbol);
      assert Replay(trades) == ReplayTrade(st, t);
      var q' := QueueOf(Replay(trades), symbol);
      var lots' := BuyLots(trades, symbol);
      if t.symbol == symbol && t.side == Buy {
        assert q' == q + [LotOf(t)];
        assert lots' == lots + [LotOf(t)];
        assert t.quantity > 0.0;
        FifoRemainderAppend(q, lots, LotOf(t));
      } else {
        assert lots' == lots + [] == lots;
        if t.symbol == symbol {
          assert q' == MatchSell(q, t.quantity, t).rest;
          FifoRemainderMatch(q, lots, t.quantity, t);
        } else {
          assert q' == q;
        }
      }
      FifoRemainderIsPositive(q', lots');
    }
  }

  /** No open lot of `q` was bought after day `day`. */
  predicate BoughtBy(q: seq<Lot>, day: int)
  {
    forall i :: 0 <= i < |q| ==> q[i].day <= day
  }

  /** No open lot of any asset was bought after day `day`. */
  ghost predicate LotsNoLaterThan(st: ReplayState, day: int)
  {
    forall s :: BoughtBy(QueueOf(st, s), day)
  }

  /** A SELL dated no earlier than all its lots gives slices held for a non-negative number of days. */
  lemma MatchSellHoldingPeriods(q: seq<Lot>, remaining: real, sell: Trade)
    requires BoughtBy(q, sell.day)
    ensures var m := MatchSell(q, remaining, sell);
      && (forall i :: 0 <= i < |m.slices| ==> m.slices[i].DaysHeld() >= 0)
      && BoughtBy(m.rest, sell.day)
  {
    var m := MatchSell(q, remaining, sell);
    MatchSellFollowsQueue(q, remaining, sell);
    MatchSellLeavesFifoRest(q, remaining, sell);
    var j := |m.slices|;
    if m.rest != q[j..] {
      assert m.rest[1..] == q[j..];
      forall i | 1 <= i < |m.rest| ensures m.rest[i].day <= sell.day {
        assert m.rest[i] == q[j..][i - 1];
      }
    }
  }

  /**
   In a chronological history every lot-slice has a non-negative holding period,
   and no open lot postdates the last trade.
   */
  lemma {:induction false} ChronologicalHoldingPeriods(trades: seq<Trade>)
    requires Chronological(trades) && |trades| > 0
    ensures LotsNoLaterThan(Replay(trades), trades[|trades| - 1].day)
    ensures forall i :: 0 <= i < |Replay(trades).slices| ==> Replay(trades).slices[i].DaysHeld() >= 0
    decreases |trades|
  {
    var prefix := trades[..|trades| - 1];
    var t := trades[|trades| - 1];
    var st := Replay(prefix);
    assert Replay(trades) == ReplayTrade(st, t);
    if |prefix| > 0 {
      assert Chronological(prefix) by {
        forall i, j | 0 <= i < j < |prefix| ensures prefix[i].day <= prefix[j].day {
          assert prefix[i] == trades[i] && prefix[j] == trades[j];
        }
      }
      ChronologicalHoldingPeriods(prefix);
      assert prefix[|prefix| - 1].day <= t.day;
      forall s ensures BoughtBy(QueueOf(st, s), t.day) {
        assert BoughtBy(QueueOf(st, s), prefix[|prefix| - 1].day);
      }
    } else {
      assert st.queues == map[] && st.slices == [];
    }
    var q := QueueOf(st, t.symbol);
    var r := Replay(trades);
    if t.side == Sell {
      MatchSellHoldingPeriods(q, t.quantity, t);
    }
    forall s ensures BoughtBy(QueueOf(r, s), t.day) {
      if s != t.symbol {
        assert QueueOf(r, s) == QueueOf(st, s);
      }
    }
  }
}

=== FILE: tax_summary.dfy ===
/**
 The tax side of the engine: holding-period classification, tax per lot-slice,
 per-slice hints with a severity, the short/long-term subtotals, and the
 portfolio-level recommendations, assembled into one tax summary.
 */
module TaxSummary {
  import opened Ledger
  import opened LotQueue
  import opened TaxLots

  /** Rate on short-term gains (held under a year). */
  const ShortTermRate: real := 0.30
  /** Rate on long-term gains (held a year or more). */
  const LongTermRate: real := 0.20
  /** Days held from which a gain is long-term. */
  const LongTermDays: int := 365
  /** A short-term gain this many days or more away from the threshold earns an optimisation hint. */
  const OptimizationWindow: int := 30
  /** Tax amount above which a hint or the summary is flagged. */
  const HighTaxThreshold: real := 100000.0

  datatype HoldingPeriod = ShortTerm | LongTerm

  datatype Severity = Info | Optimization | Warning

  /** The wording of a hint, as the case it reports and the number it quotes. */
  datatype HintText =
    | LossNote
    | LongTermGain(daysHeld: int)
    | HoldLonger(extraDays: int)
    | ShortTermGain(daysHeld: int)

  /** The portfolio-level recommendations, in the order they can appear. */
  datatype Recommendation =
    | NoLiability
    | HoldForLongTermRate
    | HarvestLosses
    | DocumentMixedPeriods
    | ConsultAdvisor
    | KeepRecords

  /** One reported realized gain or loss. */
  datatype TaxHint = TaxHint(asset: string, symbol: string, realizedGain: real, estimatedTax: real,
                             holdingPeriod: HoldingPeriod, daysHeld: int, hint: HintText,
                             hintType: Severity)

  datatype TaxSummary = TaxSummary(totalRealizedGains: real, totalEstimatedTax: real,
                                   shortTermGains: real, longTermGains: real,
                                   shortTermTax: real, longTermTax: real,
                                   hints: seq<TaxHint>, recommendations: seq<Recommendation>)

  /** The running subtotals and hints of the replay loop. */
  datatype Totals = Totals(shortTermGains: real, longTermGains: real,
                           shortTermTax: real, longTermTax: real, hints: seq<TaxHint>)

  function IsLongTerm(daysHeld: int): bool
  {
    daysHeld >= LongTermDays
  }

  function PeriodOf(s: Slice): HoldingPeriod
  {
    if IsLongTerm(s.DaysHeld()) then LongTerm else ShortTerm
  }

  /** Tax on one gain: nothing on a loss or a zero gain, a fraction of any positive gain. */
  function EstimatedTax(gain: real, isLongTerm: bool): (tax: real)
    ensures tax >= 0.0
    ensures tax == 0.0 <==> gain <= 0.0
    ensures gain > 0.0 ==> tax < gain
    ensures gain > 0.0 && isLongTerm ==> tax < EstimatedTax(gain, false)
  {
    var rate := if isLongTerm then LongTermRate else ShortTermRate;
    if gain > 0.0 then gain * rate else 0.0
  }

  function SliceTax(s: Slice): real
  {
    EstimatedTax(s.Gain(), IsLongTerm(s.DaysHeld()))
  }

  /**
   The hint wording: a loss note, the long-term rate, a suggestion naming how
   many more days reach the long-term threshold, or the short-term rate.
   */
  function GenerateHint(gain: real, isLongTerm: bool, daysHeld: int): (h: HintText)
    ensures h.LossNote? <==> gain <= 0.0
    ensures h.LongTermGain? <==> gain > 0.0 && isLongTerm
    ensures h.HoldLonger? <==> gain > 0.0 && !isLongTerm && daysHeld < LongTermDays - OptimizationWindow
    ensures h.ShortTermGain? <==> gain > 0.0 && !isLongTerm && daysHeld >= LongTermDays - OptimizationWindow
    ensures h.HoldLonger? ==> h.extraDays > OptimizationWindow && daysHeld + h.extraDays == LongTermDays
    ensures h.LongTermGain? || h.ShortTermGain? ==> h.daysHeld == daysHeld
  {
    if gain <= 0.0 then LossNote
    else if isLongTerm then LongTermGain(daysHeld)
    else if daysHeld < LongTermDays - OptimizationWindow then HoldLonger(LongTermDays - daysHeld)
    else ShortTermGain(daysHeld)
  }

  /** Severity, by the first rule that applies: loss, optimisation window, high tax, otherwise info. */
  function DetermineHintType(gain: real, tax: real, isLongTerm: bool, daysHeld: int): (sev: Severity)
    ensures gain <= 0.0 ==> sev == Info
    ensures sev == Optimization <==> gain > 0.0 && !isLongTerm && daysHeld < LongTermDays - OptimizationWindow
    ensures sev == Warning <==>
      gain > 0.0 && (isLongTerm || daysHeld >= LongTermDays - OptimizationWindow) && tax > HighTaxThreshold
  {
    if gain <= 0.0 then Info
    else if !isLongTerm && daysHeld < LongTermDays - OptimizationWindow then Optimization
    else if tax > HighTaxThreshold then Warning
    else Info
  }

  /**
   The hint reported for one slice: its asset, its signed gain, the tax on that
   gain, its holding period and days held, with the text and severity for them.
   */
  function MakeHint(s: Slice): (h: TaxHint)
    ensures h.asset == s.symbol && h.symbol == s.symbol
    ensures h.realizedGain == s.Gain() && h.estimatedTax == SliceTax(s)
    ensures h.holdingPeriod == PeriodOf(s) && h.daysHeld == s.DaysHeld()
    ensures h.hint.LossNote? <==> s.Gain() <= 0.0
    ensures h.hint.LongTermGain? <==> s.Gain() > 0.0 && PeriodOf(s) == LongTerm
    ensures h.hint.LongTermGain? || h.hint.ShortTermGain? ==> h.hint.daysHeld == s.DaysHeld()
    ensures h.hint.HoldLonger? <==>
      s.Gain() > 0.0 && PeriodOf(s) == ShortTerm && s.DaysHeld() < LongTermDays - OptimizationWindow
    ensures h.hint.HoldLonger? ==> h.hint.extraDays == LongTermDays - s.DaysHeld()
    ensures h.hintType == Optimization <==> h.hint.HoldLonger?
    ensures h.hintType == Warning <==>
      s.Gain() > 0.0 && (PeriodOf(s) == LongTerm || s.DaysHeld() >= LongTermDays - OptimizationWindow)
      && SliceTax(s) > HighTaxThreshold
  {
    var gain := s.Gain();
    var isLong := IsLongTerm(s.DaysHeld());
    var tax := EstimatedTax(gain, isLong);
    TaxHint(s.symbol, s.symbol, gain, tax, PeriodOf(s), s.DaysHeld(),
            GenerateHint(gain, isLong, s.DaysHeld()), DetermineHintType(gain, tax, isLong, s.DaysHeld()))
  }

  /**
   The hint text and the severity tell the same story: an optimisation hint is
   exactly a hold-longer suggestion, a loss is only ever informational, and a
   warning needs a gain so large that even the short-term rate taxes it above
   the threshold.
   */
  lemma HintAgreesWithSeverity(s: Slice)
    ensures var h := MakeHint(s);
      && (h.hint.HoldLonger? <==> h.hintType == Optimization)
      && (h.hint.LossNote? ==> h.hintType == Info)
      && (h.hintType == Warning ==> h.realizedGain * ShortTermRate > HighTaxThreshold)
      && (h.hintType == Warning ==> !h.hint.HoldLonger? && !h.hint.LossNote?)
  {
    var h := MakeHint(s);
    if h.hintType == Warning {
      var g := s.Gain();
      assert g > 0.0;
      assert h.estimatedTax <= g * ShortTermRate;
    }
  }

  /** Holding-period boundary: exactly a year is long-term, a day less is short-term. */
  lemma HoldingPeriodBoundary(s: Slice)
    ensures s.DaysHeld() == 365 ==> PeriodOf(s) == LongTerm && MakeHint(s).holdingPeriod == LongTerm
    ensures s.DaysHeld() == 364 ==> PeriodOf(s) == ShortTerm && MakeHint(s).holdingPeriod == ShortTerm
    ensures PeriodOf(s) == LongTerm <==> s.DaysHeld() >= LongTermDays
  {
  }

  /** The hints reported for `slices`: one per slice with a non-zero gain, in order. */
  function HintsOf(slices: seq<Slice>): seq<TaxHint>
  {
    if |slices| == 0 then []
    else (if slices[0].Gain() != 0.0 then [MakeHint(slices[0])] else []) + HintsOf(slices[1..])
  }

  /** Sum of the gains of the slices held for period `p`. */
  function GainIn(slices: seq<Slice>, p: HoldingPeriod): real
  {
    if |slices| == 0 then 0.0
    else (if PeriodOf(slices[0]) == p then slices[0].Gain() else 0.0) + GainIn(slices[1..], p)
  }

  /** Sum of the positive gains of the slices held for period `p`. */
  function ProfitIn(slices: seq<Slice>, p: HoldingPeriod): (r: real)
    ensures r >= 0.0
  {
    if |slices| == 0 then 0.0
    else
      var g := slices[0].Gain();
      (if PeriodOf(slices[0]) == p && g > 0.0 then g else 0.0) + ProfitIn(slices[1..], p)
  }

  lemma {:induction false} HintsOfAppend(a: seq<Slice>, s: Slice)
    ensures HintsOf(a + [s]) == HintsOf(a) + (if s.Gain() != 0.0 then [MakeHint(s)] else [])
    decreases |a|
  {
    if |a| > 0 {
      assert (a + [s])[1..] == a[1..] + [s];
      HintsOfAppend(a[1..], s);
    } else {
      assert (a + [s])[1..] == [];
    }
  }

  lemma {:induction false} SumsAppend(a: seq<Slice>, s: Slice, p: HoldingPeriod)
    ensures GainIn(a + [s], p) == GainIn(a, p) + (if PeriodOf(s) == p then s.Gain() else 0.0)
    ensures ProfitIn(a + [s], p) == ProfitIn(a, p) + (if PeriodOf(s) == p && s.Gain() > 0.0 then s.Gain() else 0.0)
    decreases |a|
  {
    if |a| > 0 {
      assert (a + [s])[1..] == a[1..] + [s];
      SumsAppend(a[1..], s, p);
    } else {
      assert (a + [s])[1..] == [];
    }
  }

  /** One iteration of the matching loop's bookkeeping: subtotal the slice, report it if its gain is non-zero. */
  function AddSlice(acc: Totals, s: Slice): (r: Totals)
    ensures var g := s.Gain();
      && r.shortTermGains == acc.shortTermGains + (if PeriodOf(s) == ShortTerm then g else 0.0)
      && r.longTermGains == acc.longTermGains + (if PeriodOf(s) == LongTerm then g else 0.0)
      && r.shortTermTax == acc.shortTermTax + ShortTermRate * (if PeriodOf(s) == ShortTerm && g > 0.0 then g else 0.0)
      && r.longTermTax == acc.longTermTax + LongTermRate * (if PeriodOf(s) == LongTerm && g > 0.0 then g else 0.0)
      && r.hints == acc.hints + (if g != 0.0 then [MakeHint(s)] else [])
  {
    var gain := s.Gain();
    var isLong := IsLongTerm(s.DaysHeld());
    var tax := EstimatedTax(gain, isLong);
    var acc' := if isLong then acc.(longTermGains := acc.longTermGains + gain, longTermTax := acc.longTermTax + tax)
                else acc.(shortTermGains := acc.shortTermGains + gain, shortTermTax := acc.shortTermTax + tax);
    if gain != 0.0 then acc'.(hints := acc'.hints + [MakeHint(s)]) else acc'
  }

  /**
   The subtotals after all slices, in processing order. Every slice, zero gains
   included, lands in the subtotal of its class; the taxes are the class rate
   times the class's positive gains; the hints are exactly those of the
   non-zero-gain slices, in order.
   */
  function Accumulate(slices: seq<Slice>): (r: Totals)
    ensures r.shortTermGains == GainIn(slices, ShortTerm)
    ensures r.longTermGains == GainIn(slices, LongTerm)
    ensures r.shortTermTax == ShortTermRate * ProfitIn(slices, ShortTerm)
    ensures r.longTermTax == LongTermRate * ProfitIn(slices, LongTerm)
    ensures r.shortTermTax >= 0.0 && r.longTermTax >= 0.0
    ensures r.hints == HintsOf(slices)
    decreases |slices|
  {
    if |slices| == 0 then Totals(0.0, 0.0, 0.0, 0.0, [])
    else
      var prefix := slices[..|slices| - 1];
      var s := slices[|slices| - 1];
      assert slices == prefix + [s];
      HintsOfAppend(prefix, s);
      SumsAppend(prefix, s, ShortTerm);
      SumsAppend(prefix, s, LongTerm);
      AddSlice(Accumulate(prefix), s)
  }

  /** Position of an optional recommendation in the list. */
  function Rank(r: Recommendation): int
  {
    match r
    case NoLiability => 0
    case HoldForLongTermRate => 1
    case HarvestLosses => 2
    case DocumentMixedPeriods => 3
    case ConsultAdvisor => 4
    case KeepRecords => 5
  }

  /** Recommendations listed in their fixed order. */
  predicate InOrder(recs: seq<Recommendation>)
  {
    forall i :: 0 <= i < |recs| - 1 ==> Rank(recs[i]) < Rank(recs[i + 1])
  }

  /**
   The recommendations after a positive realized gain: the optional items whose
   flags are set, in their fixed order, then the advisor and record-keeping notes.
   */
  function PositiveGainRecommendations(holdLonger: bool, harvest: bool, mixed: bool): (recs: seq<Recommendation>)
    ensures 2 <= |recs| <= 5
    ensures recs[|recs| - 2] == ConsultAdvisor && recs[|recs| - 1] == KeepRecords
    ensures NoLiability !in recs
    ensures HoldForLongTermRate in recs <==> holdLonger
    ensures HarvestLosses in recs <==> harvest
    ensures DocumentMixedPeriods in recs <==> mixed
    ensures InOrder(recs)
  {
    match (holdLonger, harvest, mixed)
    case (false, false, false) => [ConsultAdvisor, KeepRecords]
    case (false, false, true) => [DocumentMixedPeriods, ConsultAdvisor, KeepRecords]
    case (false, true, false) => [HarvestLosses, ConsultAdvisor, KeepRecords]
    case (false, true, true) => [HarvestLosses, DocumentMixedPeriods, ConsultAdvisor, KeepRecords]
    case (true, false, false) => [HoldForLongTermRate, ConsultAdvisor, KeepRecords]
    case (true, false, true) => [HoldForLongTermRate, DocumentMixedPeriods, ConsultAdvisor, KeepRecords]
    case (true, true, false) => [HoldForLongTermRate, HarvestLosses, ConsultAdvisor, KeepRecords]
    case (true, true, true) => [HoldForLongTermRate, HarvestLosses, DocumentMixedPeriods, ConsultAdvisor, KeepRecords]
  }

  /**
   Recommendations for a summary. No realized gain gives the single no-liability
   note. Otherwise each optional item is present exactly when its condition
   holds, they appear in their fixed order, and the advisor and record-keeping
   notes close the list.
   */
  function Recommendations(summary: TaxSummary): (recs: seq<Recommendation>)
    ensures summary.totalRealizedGains <= 0.0 ==> recs == [NoLiability]
    ensures summary.totalRealizedGains > 0.0 ==>
      && 2 <= |recs| <= 5
      && recs[|recs| - 2] == ConsultAdvisor && recs[|recs| - 1] == KeepRecords
      && NoLiability !in recs
      && (HoldForLongTermRate in recs <==> summary.shortTermGains > summary.longTermGains)
      && (HarvestLosses in recs <==> summary.totalEstimatedTax > HighTaxThreshold)
      && (DocumentMixedPeriods in recs <==> summary.shortTermTax > 0.0 && summary.longTermTax > 0.0)
      && InOrder(recs)
  {
    if summary.totalRealizedGains <= 0.0 then [NoLiability]
    else
      PositiveGainRecommendations(summary.shortTermGains > summary.longTermGains,
                                  summary.totalEstimatedTax > HighTaxThreshold,
                                  summary.shortTermTax > 0.0 && summary.longTermTax > 0.0)
  }

  /**
   The tax summary of a trade history: the grand totals are the sums of the
   short- and long-term figures, the hints are those of the replayed slices,
   and the recommendations are drawn from the figures.
   */
  function CalculateTaxHints(trades: seq<Trade>): (r: TaxSummary)
    ensures r.totalRealizedGains == r.shortTermGains + r.longTermGains
    ensures r.totalEstimatedTax == r.shortTermTax + r.longTermTax
    ensures r.hints == HintsOf(Replay(trades).slices)
    ensures r.recommendations == Recommendations(r.(recommendations := []))
  {
    var acc := Accumulate(Replay(trades).slices);
    var summary := TaxSummary(acc.shortTermGains + acc.longTermGains, acc.shortTermTax + acc.longTermTax,
                              acc.shortTermGains, acc.longTermGains, acc.shortTermTax, acc.longTermTax,
                              acc.hints, []);
    summary.(recommendations := Recommendations(summary))
  }

  /**
   What the summary reports about the replayed slices: each class's gain is the
   sum of its slices' gains and its tax is the class rate times its positive
   gains, the grand totals are the sums of the classes, every tax figure is
   non-negative, the hints are the non-zero-gain slices in sell-processing
   order, and the recommendations are those of these figures.
   */
  lemma TaxSummaryFigures(trades: seq<Trade>)
    ensures var r := CalculateTaxHints(trades);
      var slices := Replay(trades).slices;
      && r.shortTermGains == GainIn(slices, ShortTerm) && r.longTermGains == GainIn(slices, LongTerm)
      && r.shortTermTax == ShortTermRate * ProfitIn(slices, ShortTerm)
      && r.longTermTax == LongTermRate * ProfitIn(slices, LongTerm)
      && r.totalRealizedGains == r.shortTermGains + r.longTermGains
      && r.totalEstimatedTax == r.shortTermTax + r.longTermTax
      && r.totalRealizedGains == GainIn(slices, ShortTerm) + GainIn(slices, LongTerm)
      && r.totalEstimatedTax == ShortTermRate * ProfitIn(slices, ShortTerm) + LongTermRate * ProfitIn(slices, LongTerm)
      && r.shortTermTax >= 0.0 && r.longTermTax >= 0.0 && r.totalEstimatedTax >= 0.0
      && r.hints == HintsOf(slices)
      && r.recommendations == Recommendations(r.(recommendations := []))
      && (r.totalRealizedGains <= 0.0 <==> |r.recommendations| == 1)
  {
    var acc := Accumulate(Replay(trades).slices);
    var r := CalculateTaxHints(trades);
    var recs := Recommendations(r.(recommendations := []));
    assert r.recommendations == recs;
  }

  /** Every reported hint is a slice with a non-zero gain and a non-negative tax. */
  lemma {:induction false} HintsReportNonZeroGains(slices: seq<Slice>)
    ensures |HintsOf(slices)| <= |slices|
    ensures forall i :: 0 <= i < |HintsOf(slices)| ==>
      HintsOf(slices)[i].realizedGain != 0.0 && HintsOf(slices)[i].estimatedTax >= 0.0
    decreases |slices|
  {
    if |slices| > 0 {
      HintsReportNonZeroGains(slices[1..]);
    }
  }
}
